=== FILE: README.md ===
# stream: a verified model of a Go chainable-stream package

The Go package `stream` wraps a slice of `int` (`IntStream`) or of
`string` (`StringStream`). Its methods chain, Java-stream style:
`MapToInt`, `MapToString`, `Filter`, `Peek`, `Limit`, `Skip`, `Distinct`,
`Sorted` and `SortedBy` each return a stream. `Reduce`, `ForEach`,
`Collect`, `Count`, `Max` and `Min` end the chain. `StringStream` offers
`Filter`, `MapToInt` and `Collect`. Every stage runs eagerly over a slice.

This project models both stream types as Dafny classes and proves what
each operation computes. The files are:

- `sequences.dfy` (module `Sequences`): specification functions over
  sequences (`Map`, `Filter`, `Clamp`, `Distinct`, `FoldLeft`) and the
  lemmas that say what they mean. The lemmas cover order preservation,
  counts, first-occurrence order and fold decomposition.
- `sorting.dfy` (module `Sorting`): `StableSort`, a stable insertion sort
  parameterised by a "less than" relation. Lemmas prove it is a
  permutation, that it is ordered and stable for any strict weak order,
  and that its result is unique for a total order. `SortInPlace` sorts an
  array in place and is proved equal to `StableSort`.
- `stream.dfy` (module `Stream`): the classes `IntStream` and
  `StringStream`. Each wraps a `const data: array<…>`, the Go slice. Each
  method is proved against the specification functions. Aliasing, for
  whole slices (see "Slice windows" under "## Left out"), is
  modelled as the Go code does it:
  - the constructor keeps the caller's array;
  - `Collect` returns that same array;
  - `Peek` returns the receiver itself;
  - `Sorted` and `SortedBy` sort the receiver's own array in place and
    return a new stream over that same array;
  - every other transformer builds its result with `append` into a new
    slice, so its result is `fresh`.
- `scenarios.dfy` (module `StreamExamples`): the scenarios of the
  package's example and test files as client methods. Each method's
  postcondition is the expected output.

The package's example `ExampleNotAffectEachOther`
(`example_test.go:22-41`) suggests that stages do not interfere: it
reuses one sorted stage twice. For every transformer other than `Sorted`
and `SortedBy` this holds: their empty frames (no `modifies` clause) and
their `fresh` postconditions prove it. But
`Sorted` and `SortedBy` (`intstream.go:98-116`) call `sort.SliceStable`
on `s.data` itself. They therefore reorder the slice handed to
`NewIntStream`, and the resulting stream shares it. The model follows the
code. `StreamExamples.SortedSortsCallersSlice` proves this: after
`NewIntStream(input).Sorted()`, the caller's `input` array holds the
sorted values and is the very array `Collect` returns. The
non-interference example still holds (`StreamExamples.NotAffectEachOther`)
because its two reuses go through `MapToInt`, which never writes, given
callbacks that do not write either (see "## Left out").

## Model

| member | source | states |
|---|---|---|
| Sequences.Map | intstream.go:18-26 | the result has the input's length and element `i` is `f` of input element `i` |
| Sequences.Filter | intstream.go:36-46 | the result is no longer than the input; every kept element occurs in the input and passes `f`; every input element that passes `f` is kept |
| Sequences.FilterAppend | intstream.go:36-46 | filtering distributes over concatenation, so kept elements stay in input order |
| Sequences.FilterCounts | intstream.go:36-46 | every occurrence of a value that passes is kept, and no occurrence of any other value |
| Sequences.FilterAllPass | intstream.go:36-46 | a filter that every element passes returns the input unchanged |
| Sequences.FilterNonePass | intstream.go:36-46 | a filter that no element passes returns the empty sequence |
| Sequences.Clamp | intstream.go:55-81 | the count that `Limit`/`Skip` keep or drop: 0 for `n <= 0`, the length for `n >= len`, otherwise `n` |
| Sequences.FirstIndex | intstream.go:83-96 | the index of the first occurrence of a value: it holds the value and no earlier index does |
| Sequences.FirstIndexPrefix | intstream.go:83-96 | a first occurrence inside a prefix is the first occurrence in the whole sequence |
| Sequences.Distinct | intstream.go:83-96 | every result element comes from the input, every input value appears in the result, and the result is no longer |
| Sequences.DistinctSnoc | intstream.go:86-92 | the definition of `Distinct` unfolded for `p + [x]`: a value already seen is skipped, a new value is appended (a rewriting step for the lemmas below) |
| Sequences.DistinctNoDuplicates | intstream.go:83-96 | the result never holds a value twice |
| Sequences.DistinctFirstOccurrenceOrder | intstream.go:83-96 | the result lists values in the order of their first occurrence in the input |
| Sequences.DistinctOfDuplicateFree | intstream.go:83-96 | on duplicate-free input, `Distinct` is the identity |
| Sequences.DistinctAppendSeen | intstream.go:86-89 | appending values that were already seen does not change the result |
| Sequences.DistinctAppendFresh | intstream.go:86-92 | appending new, pairwise different values appends them all, in order |
| Sequences.DistinctDropsRepeats | intstream.go:83-96 | repeats of seen values between two runs of new values vanish, leaving the two runs |
| Sequences.FoldLeft | intstream.go:118-125 | the left fold `Reduce` is proved against: on empty data it is the initial accumulator itself; `FoldLeftSnoc` and `FoldLeftAppend` give its left-fold shape |
| Sequences.FoldLeftSnoc | intstream.go:118-125 | folding one more element applies `fn` once more to the accumulator, as the loop does |
| Sequences.FoldLeftAppend | intstream.go:118-125 | folding a concatenation folds the second part from the first part's result |
| Sorting.InsertPos | intstream.go:98-116 | where insertion puts `x`: everything to its right is greater than `x`, and the element to its left is not |
| Sorting.InsertPermutation | intstream.go:98-116 | one insertion adds exactly one occurrence of `x` |
| Sorting.StableSortPermutation | intstream.go:98-116 | for any comparator, sorting keeps the length and the multiset of elements |
| Sorting.InsertOrdered | intstream.go:98-116 | for a strict weak order, inserting into an ordered sequence keeps it ordered |
| Sorting.StableSortOrdered | intstream.go:98-116 | for a strict weak order, no later element of the result is less than an earlier one |
| Sorting.InsertStable | intstream.go:98-116 | insertion puts `x` after every element of its own equivalence class and leaves other classes as they were |
| Sorting.StableSortStable | intstream.go:98-116 | for a strict weak order, each equivalence class appears in the result in its input order (stability) |
| Sorting.OrderedUnique | intstream.go:98-116 | for a comparator that tells any two values apart, two ordered arrangements of one multiset are equal |
| Sorting.StableSortDetermined | intstream.go:98-116 | for a total strict weak order, the sorted result is the unique ordered permutation of the input, so any stable sort agrees with this one |
| Sorting.LessIsTotalOrder | intstream.go:100-102 | the comparator `Sorted` uses is a strict weak order that tells any two integers apart |
| Sorting.SortByLessAscending | intstream.go:98-106 | sorting by `<` gives an ascending permutation of the input |
| Sorting.InsertLast | intstream.go:98-116 | moving `a[i]` left by adjacent swaps leaves `Insert` of it into `a[..i]`, with the rest of the array untouched |
| Sorting.SortInPlace | intstream.go:98-116 | the array is sorted in place into `StableSort` of its old contents |
| Stream.NewSlice | intstream.go:19-25 | the slice a run of `append` calls builds is fresh storage holding exactly the collected elements |
| Stream.IntStream.constructor | intstream.go:12-16 | `NewIntStream` wraps the caller's slice itself, not a copy |
| Stream.IntStream.MapToInt | intstream.go:18-26 | a new stream over fresh storage holding `Map(fn, data)` |
| Stream.IntStream.MapToString | intstream.go:28-34 | a new string stream over fresh storage holding `Map(fn, data)` |
| Stream.IntStream.Filter | intstream.go:36-46 | a new stream over fresh storage holding `Filter(fn, data)` |
| Stream.IntStream.Peek | intstream.go:48-53 | returns the receiver itself |
| Stream.IntStream.Limit | intstream.go:55-67 | a new stream over fresh storage holding the first `Clamp(limit, len)` elements |
| Stream.IntStream.Skip | intstream.go:69-81 | a new stream over fresh storage holding all but the first `Clamp(cnt, len)` elements |
| Stream.IntStream.Distinct | intstream.go:83-96 | a new stream over fresh storage holding `Distinct(data)` |
| Stream.IntStream.Sorted | intstream.go:98-106 | the receiver's own array is sorted ascending, as a stable permutation of its old contents, and the returned stream shares it |
| Stream.IntStream.SortedBy | intstream.go:108-116 | the receiver's array becomes `StableSort(fn, old)`, a permutation of it; for a strict weak order it is ordered and stable; the returned stream shares the array |
| Stream.IntStream.Reduce | intstream.go:118-125 | the result is the left fold of the elements into `initial` with `fn` |
| Stream.IntStream.ForEach | intstream.go:127-131 | modifies nothing: the stream's array and every other array are as they were |
| Stream.IntStream.Collect | intstream.go:133-135 | returns the backing slice itself |
| Stream.IntStream.Count | intstream.go:137-139 | the number of elements |
| Stream.IntStream.Max | intstream.go:141-153 | 0 for an empty stream; otherwise an element of the stream that no element exceeds |
| Stream.IntStream.Min | intstream.go:155-167 | 0 for an empty stream; otherwise an element of the stream that no element is below |
| Stream.StringStream.constructor | stringstream.go:7-11 | `NewStringStream` wraps the caller's slice itself |
| Stream.StringStream.Filter | stringstream.go:13-21 | a new stream over fresh storage holding `Filter(fn, data)` |
| Stream.StringStream.MapToInt | stringstream.go:23-29 | a new integer stream over fresh storage holding `Map(fn, data)` |
| Stream.StringStream.Collect | stringstream.go:31-33 | returns the backing slice itself |
| StreamExamples.NotAffectEachOther | example_test.go:22-41 | mapping one descending-sorted stage twice gives two distinct arrays, both `[12, 10, 8, 6, 4, 2]` |
| StreamExamples.ExampleIntStream | example_test.go:8-20 | distinct, sorted, skip 1, limit 5 of `[5, 6, -1, 1, 1, 1, 1, 1, 4, 2, 3]` is `[1, 2, 3, 4, 5]` |
| StreamExamples.SortedSortsCallersSlice | intstream_test.go:301-331 | `Sorted` of `[4, 2, 5, 1]` collects `[1, 2, 4, 5]`, and that array is the caller's own input array |
| StreamExamples.ReduceSumAndProduct | intstream_test.go:498-531 | reducing `[1..5]` from 0 with `+` gives 15; reducing `[2..5]` from 1 with `*` gives 120 |
| StreamExamples.Aggregates | intstream_test.go:399-496 | for `[-1, 3, -12, 0]`: max 3, min -12, count 4; for an empty stream: max 0 and min 0 |
| StreamExamples.StringLengths | stringstream_test.go:44-77 | mapping `["1", "22", "555", "66666"]` to lengths gives `[1, 2, 3, 5]` |
| StreamExamples.DistinctExample | example_test.go:9-10 | `Distinct` of the chained example's input is `[5, 6, -1, 1, 4, 2, 3]` |
| StreamExamples.SortsChain | intstream_test.go:301-366 | for a total strict weak order (`<` in the `Sorted` tests, `>` in the `SortedBy` tests), sorting a rearrangement of a sequence in which each element is less than the next gives that sequence |

## Left out

- Max and Min: Go compares through `math.Max`/`math.Min` on `float64` and
  converts back to `int`. The model compares integers exactly. The two
  differ for magnitudes above 2^53, where the conversion rounds: Go's
  `Max` of `[2^53 + 1, 0]` is 2^53, which is not an element of the
  stream, and for `math.MaxInt64` the value rounds up to 2^63, whose
  conversion back to `int` is out of range and implementation-dependent
  in Go. The model's promise that the result is an element holds only
  below 2^53 in magnitude.
- Integer width: Go's `int` is 64 bits; the model uses unbounded `int`,
  so callbacks such as doubling or multiplying do not wrap around.
- Stream.IntStream.Limit: the Go loop breaks when `i > limit - 1`
  (`intstream.go:59`). For `limit` equal to `math.MinInt64`, `limit - 1`
  wraps to `math.MaxInt64`, the break never fires and Go keeps every
  element. Over unbounded integers the model keeps none, as for every
  other limit of zero or less.
- Callbacks: every callback of `MapToInt`, `MapToString`, `Filter`,
  `SortedBy`, `Reduce` and `StringStream`'s `Filter` and `MapToInt` is a
  pure, total Dafny function. A Go callback that panics or changes state
  is not modelled: no method recovers a panic, so a panic in `SortedBy`'s
  comparator stops the sort partway and leaves the shared array partly
  reordered, and a Go callback that writes through a slice it captured
  (say `mid.Collect()` inside `mid.MapToInt`) breaks the non-interference
  the model proves. String callbacks see Dafny strings, sequences of
  characters, where Go strings are bytes, so `len` and the like differ
  on non-ASCII input.
- Peek and ForEach: the callbacks are modelled as functions returning
  `()`, so their side effects (in the examples, printing) are not
  modelled. ForEach's only postcondition is that the stream's array is
  unchanged, because apart from those side effects it has no observable
  result.
- `sort.SliceStable`: its algorithm is not modelled. `SortInPlace`, an
  insertion sort with the same stability guarantee, stands in for it.
  `Sorting.StableSortDetermined` shows that for a total order every
  correct sort gives the same result.
- Stream.IntStream.SortedBy: ordering and stability are proved only when
  the comparator is a strict weak order, the condition the Go sort
  package states for its `less` function. For any other comparator the
  model proves only the permutation and the exact result of its own
  insertion sort, which the Go runtime's algorithm need not match.
- Nil versus empty slices: a Go transformer that keeps nothing returns a
  stream over a nil slice. The model returns a fresh empty array. No
  operation of the package tells the two apart.
- Slice windows: a Go slice may cover part of a larger backing array and
  overlap other slices. A stream of the model owns a whole array, so a
  caller's sub-slice (say `NewIntStream(x[1:4])`) is not modelled, nor
  is a write by `Sorted`/`SortedBy` seen through an overlapping slice of
  the same backing array. The package itself never slices, so the
  aliasing it creates (constructor, `Collect`, `Peek`, `Sorted`,
  `SortedBy`) is modelled in full.
- Slice capacity: Go `append` may grow a slice's backing array in place.
  The model abstracts the local `result` slice as a sequence and
  allocates its final array once.

=== FILE: scenarios.dfy ===
/** Client code: the scenarios of the package's example and test files,
    replayed against the stream classes. Each method's postcondition is
    the outcome those files expect; the lemmas after them work out the
    specification functions on the concrete inputs. */
module StreamExamples {
  import Sequences
  import Sorting
  import opened Stream

  /** The comparator of the descending-sort tests. */
  function Descending(i: int, i2: int): bool {
    i > i2
  }

  /** The combiners of the `Reduce` tests. */
  function Add(i: int, i2: int): int {
    i + i2
  }

  function Multiply(i: int, i2: int): int {
    i * i2
  }

  /** The mapper of the non-interference example. */
  function Double(i: int): int {
    i * 2
  }

  /** Sorting `[1..6]` descending, then doubling it twice from the same
      intermediate stream, gives the same result both times: `MapToInt`
      writes fresh storage and never the intermediate stream's array, so
      the first result is still intact after the second call. */
  method NotAffectEachOther() returns (prev: array<int>, cur: array<int>)
    ensures prev != cur
    ensures prev[..] == [12, 10, 8, 6, 4, 2]
    ensures cur[..] == [12, 10, 8, 6, 4, 2]
  {
    var input := new int[] [1, 2, 3, 4, 5, 6];
    var start := new IntStream(input);
    DescendingExample(input[..], [6, 5, 4, 3, 2, 1]);
    var mid := start.SortedBy(Descending);
    DoubleExample(mid.data[..]);
    var doubledOnce := mid.MapToInt(Double);
    prev := doubledOnce.Collect();
    var doubledTwice := mid.MapToInt(Double);
    cur := doubledTwice.Collect();
  }

  /** The chained example: distinct, sorted, skip one, limit five. */
  method ExampleIntStream() returns (out: seq<int>)
    ensures out == [1, 2, 3, 4, 5]
  {
    var input := new int[] [5, 6, -1, 1, 1, 1, 1, 1, 4, 2, 3];
    var s0 := new IntStream(input);
    assert input[..] == input[..4] + input[4..8] + input[8..];
    DistinctExample(input[..4], input[4..8], input[8..]);
    var s1 := s0.Distinct();
    ChainSortExample(s1.data[..], [-1, 1, 2, 3, 4, 5, 6]);
    var s2 := s1.Sorted();
    assert s2.data[..] == [-1, 1, 2, 3, 4, 5, 6];
    var s3 := s2.Skip(1);
    assert s3.data[..] == [1, 2, 3, 4, 5, 6];
    LimitExample(s3.data[..]);
    var s4 := s3.Limit(5);
    var s5 := s4.Peek(i => ());
    var a := s5.Collect();
    out := a[..];
  }

  /** The first five of six. */
  lemma LimitExample(s: seq<int>)
    requires s == [1, 2, 3, 4, 5, 6]
    ensures s[..Sequences.Clamp(5, |s|)] == [1, 2, 3, 4, 5]
  {
  }

  /** `Sorted` writes the caller's own slice: after sorting, the array
      handed to the constructor holds the sorted values and is the very
      array the sorted stream collects. */
  method SortedSortsCallersSlice() returns (input: array<int>, collected: array<int>)
    ensures collected == input
    ensures input[..] == [1, 2, 4, 5]
  {
    input := new int[] [4, 2, 5, 1];
    var s := new IntStream(input);
    AscendingExample(input[..], [1, 2, 4, 5]);
    var t := s.Sorted();
    collected := t.Collect();
  }

  /** Reduce with 0 and addition over `[1..5]`, and with 1 and
      multiplication over `[2..5]`. */
  method ReduceSumAndProduct() returns (sum: int, product: int)
    ensures sum == 15 && product == 120
  {
    var a := new int[] [1, 2, 3, 4, 5];
    var s := new IntStream(a);
    SumExample(a[..]);
    sum := s.Reduce(0, Add);
    var b := new int[] [2, 3, 4, 5];
    var t := new IntStream(b);
    ProductExample(b[..]);
    product := t.Reduce(1, Multiply);
  }

  /** Max, Min and Count of `[-1, 3, -12, 0]` and of an empty stream. */
  method Aggregates() returns (max: int, min: int, count: int, emptyMax: int, emptyMin: int)
    ensures max == 3 && min == -12 && count == 4
    ensures emptyMax == 0 && emptyMin == 0
  {
    var a := new int[] [-1, 3, -12, 0];
    var s := new IntStream(a);
    max := s.Max();
    min := s.Min();
    count := s.Count();
    var e := new int[0];
    var empty := new IntStream(e);
    emptyMax := empty.Max();
    emptyMin := empty.Min();
  }

  /** Mapping strings to their lengths crosses to an integer stream. */
  method StringLengths() returns (out: seq<int>)
    ensures out == [1, 2, 3, 5]
  {
    var a := new string[] ["1", "22", "555", "66666"];
    var s := new StringStream(a);
    // `|x|` counts characters where Go's `len` counts bytes; they agree
    // on these ASCII strings.
    var lengths := s.MapToInt(x => |x|);
    var c := lengths.Collect();
    out := c[..];
  }

  /** `Distinct` of the chained example's input: four new values, four
      repeats of a seen one, then three new values. */
  lemma DistinctExample(head: seq<int>, repeats: seq<int>, tail: seq<int>)
    requires head == [5, 6, -1, 1] && repeats == [1, 1, 1, 1] && tail == [4, 2, 3]
    ensures Sequences.Distinct(head + repeats + tail) == [5, 6, -1, 1, 4, 2, 3]
  {
    assert Sequences.NoDuplicates(head + tail);
    Sequences.DistinctDropsRepeats(head, repeats, tail);
  }

  /** For a total strict weak order, sorting a rearrangement of a
      sequence in which each element is less than the next gives that
      sequence back. */
  lemma SortsChain(lt: (int, int) -> bool, s: seq<int>, sorted: seq<int>)
    requires Sorting.StrictWeakOrder(lt) && Sorting.Total(lt)
    requires forall i :: 0 < i < |sorted| ==> lt(sorted[i - 1], sorted[i])
    requires multiset(s) == multiset(sorted)
    ensures Sorting.StableSort(lt, s) == sorted
  {
    forall i, j | 0 <= i < j < |sorted|
      ensures !lt(sorted[j], sorted[i])
    {
      ChainLess(lt, sorted, i, j);
      Sorting.Asymmetric(lt, sorted[i], sorted[j]);
    }
    Sorting.StableSortDetermined(lt, s, sorted);
  }

  /** The ascending sort in the chained example. */
  lemma ChainSortExample(s: seq<int>, sorted: seq<int>)
    requires s == [5, 6, -1, 1, 4, 2, 3]
    requires sorted == [-1, 1, 2, 3, 4, 5, 6]
    ensures Sorting.StableSort(Sorting.Less, s) == sorted
  {
    ChainSortPermutation(s, sorted);
    IncreasingChain(sorted);
    Sorting.LessIsTotalOrder();
    SortsChain(Sorting.Less, s, sorted);
  }

  /** The first case of the `Sorted` tests. */
  lemma AscendingExample(s: seq<int>, sorted: seq<int>)
    requires s == [4, 2, 5, 1]
    requires sorted == [1, 2, 4, 5]
    ensures Sorting.StableSort(Sorting.Less, s) == sorted
  {
    AscendingPermutation(s, sorted);
    IncreasingChain(sorted);
    Sorting.LessIsTotalOrder();
    SortsChain(Sorting.Less, s, sorted);
  }

  /** The descending sort of the non-interference example. */
  lemma DescendingExample(s: seq<int>, sorted: seq<int>)
    requires s == [1, 2, 3, 4, 5, 6]
    requires sorted == [6, 5, 4, 3, 2, 1]
    ensures Sorting.StableSort(Descending, s) == sorted
  {
    DescendingPermutation(s, sorted);
    DecreasingChain(sorted);
    DescendingIsTotalOrder();
    SortsChain(Descending, s, sorted);
  }

  /** Each element of a strictly increasing sequence is `Less` than the
      next. */
  lemma IncreasingChain(s: seq<int>)
    requires forall i :: 0 < i < |s| ==> s[i - 1] < s[i]
    ensures forall i :: 0 < i < |s| ==> Sorting.Less(s[i - 1], s[i])
  {
  }

  /** Each element of a strictly decreasing sequence is `Descending`
      from the next. */
  lemma DecreasingChain(s: seq<int>)
    requires forall i :: 0 < i < |s| ==> s[i - 1] > s[i]
    ensures forall i :: 0 < i < |s| ==> Descending(s[i - 1], s[i])
  {
  }

  lemma ChainSortPermutation(s: seq<int>, sorted: seq<int>)
    requires s == [5, 6, -1, 1, 4, 2, 3]
    requires sorted == [-1, 1, 2, 3, 4, 5, 6]
    ensures multiset(s) == multiset(sorted)
  {
  }

  lemma AscendingPermutation(s: seq<int>, sorted: seq<int>)
    requires s == [4, 2, 5, 1]
    requires sorted == [1, 2, 4, 5]
    ensures multiset(s) == multiset(sorted)
  {
  }

  /** In a chain where each element is less than the next, every
      element is less than every later one. */
  lemma {:induction false} ChainLess(lt: (int, int) -> bool, s: seq<int>, i: nat, j: nat)
    requires Sorting.StrictWeakOrder(lt)
    requires forall k :: 0 < k < |s| ==> lt(s[k - 1], s[k])
    requires i < j < |s|
    ensures lt(s[i], s[j])
    decreases j - i
  {
    assert lt(s[i], s[i + 1]);
    if i + 1 < j {
      ChainLess(lt, s, i + 1, j);
      var x, y, z := s[i], s[i + 1], s[j];
      assert lt(x, y) && lt(y, z);
    }
  }

  /** `Descending` is a strict weak order under which any two different
      values are comparable. */
  lemma DescendingIsTotalOrder()
    ensures Sorting.StrictWeakOrder(Descending) && Sorting.Total(Descending)
  {
  }

  lemma DescendingPermutation(s: seq<int>, sorted: seq<int>)
    requires s == [1, 2, 3, 4, 5, 6]
    requires sorted == [6, 5, 4, 3, 2, 1]
    ensures multiset(s) == multiset(sorted)
  {
  }

  /** Doubling the descending sequence. */
  lemma DoubleExample(s: seq<int>)
    requires s == [6, 5, 4, 3, 2, 1]
    ensures Sequences.Map(Double, s) == [12, 10, 8, 6, 4, 2]
  {
  }

  /** 0 + 1 + 2 + 3 + 4 + 5, folded from the left. */
  lemma SumExample(s: seq<int>)
    requires s == [1, 2, 3, 4, 5]
    ensures Sequences.FoldLeft(Add, 0, s) == 15
  {
    assert Sequences.FoldLeft(Add, 15, s[5..]) == 15;
    assert Sequences.FoldLeft(Add, 10, s[4..]) == 15;
    assert Sequences.FoldLeft(Add, 6, s[3..]) == 15;
    assert Sequences.FoldLeft(Add, 3, s[2..]) == 15;
    assert Sequences.FoldLeft(Add, 1, s[1..]) == 15;
  }

  /** 1 * 2 * 3 * 4 * 5, folded from the left. */
  lemma ProductExample(s: seq<int>)
    requires s == [2, 3, 4, 5]
    ensures Sequences.FoldLeft(Multiply, 1, s) == 120
  {
    assert Sequences.FoldLeft(Multiply, 120, s[4..]) == 120;
    assert Sequences.FoldLeft(Multiply, 24, s[3..]) == 120;
    assert Sequences.FoldLeft(Multiply, 6, s[2..]) == 120;
    assert Sequences.FoldLeft(Multiply, 2, s[1..]) == 120;
  }
}

=== FILE: sequences.dfy ===
/** Specifications, over Dafny sequences, of what the stream operations
    compute. `Map`, `Filter` and `Distinct` are written the way the Go
    loops build their `result` slice: one element appended at the end per
    step. `FoldLeft` consumes its input from the front; `FoldLeftSnoc`
    gives the step the accumulator loop takes at the end. The stream
    classes in module Stream are proved against these functions, and the
    lemmas here state what the functions mean. */
module Sequences {

  /** The element-wise image of `s` under `f`. */
  function Map<A, B>(f: A -> B, s: seq<A>): (r: seq<B>)
    ensures |r| == |s|
    ensures forall i :: 0 <= i < |s| ==> r[i] == f(s[i])
  {
    if s == [] then [] else Map(f, s[..|s| - 1]) + [f(s[|s| - 1])]
  }

  /** The elements of `s` that satisfy `f`, in their original order. */
  function Filter<T(==)>(f: T -> bool, s: seq<T>): (r: seq<T>)
    ensures |r| <= |s|
    ensures forall i :: 0 <= i < |r| ==> r[i] in s && f(r[i])
    ensures forall i :: 0 <= i < |s| && f(s[i]) ==> s[i] in r
  {
    if s == [] then []
    else
      var p, x := s[..|s| - 1], s[|s| - 1];
      assert s == p + [x];
      Filter(f, p) + (if f(x) then [x] else [])
  }

  /** Filtering distributes over concatenation: whatever comes from `s`
      stays ahead of whatever comes from `t`, so the relative order of
      the kept elements is the input order. */
  lemma {:induction false} FilterAppend<T>(f: T -> bool, s: seq<T>, t: seq<T>)
    ensures Filter(f, s + t) == Filter(f, s) + Filter(f, t)
  {
    if t == [] {
      assert s + t == s;
    } else {
      var p, x := t[..|t| - 1], t[|t| - 1];
      assert (s + t)[..|s + t| - 1] == s + p;
      FilterAppend(f, s, p);
    }
  }

  /** Filtering keeps every occurrence of a satisfying value and no
      occurrence of any other value. */
  lemma {:induction false} FilterCounts<T>(f: T -> bool, s: seq<T>, y: T)
    ensures multiset(Filter(f, s))[y] == if f(y) then multiset(s)[y] else 0
  {
    if s != [] {
      var p, x := s[..|s| - 1], s[|s| - 1];
      assert s == p + [x];
      FilterCounts(f, p, y);
    }
  }

  /** A filter that every element passes is the identity. */
  lemma {:induction false} FilterAllPass<T>(f: T -> bool, s: seq<T>)
    requires forall i :: 0 <= i < |s| ==> f(s[i])
    ensures Filter(f, s) == s
  {
    if s != [] {
      var p := s[..|s| - 1];
      assert s == p + [s[|s| - 1]];
      FilterAllPass(f, p);
    }
  }

  /** A filter that no element passes yields the empty sequence. */
  lemma {:induction false} FilterNonePass<T>(f: T -> bool, s: seq<T>)
    requires forall i :: 0 <= i < |s| ==> !f(s[i])
    ensures Filter(f, s) == []
  {
    if s != [] {
      var p := s[..|s| - 1];
      assert s == p + [s[|s| - 1]];
      FilterNonePass(f, p);
    }
  }

  /** The count `Limit(n)` keeps and `Skip(n)` drops from a slice of
      length `len`: `n` clamped to the range 0 .. len. */
  function Clamp(n: int, len: nat): (k: nat)
    ensures k <= len
    ensures n <= 0 ==> k == 0
    ensures len <= n ==> k == len
    ensures 0 <= n <= len ==> k == n
  {
    if n <= 0 then 0 else if n < len then n else len
  }

  /** No value occurs twice in `s`. */
  predicate NoDuplicates<T(==)>(s: seq<T>) {
    forall i, j :: 0 <= i < j < |s| ==> s[i] != s[j]
  }

  /** The index of the first occurrence of `x` in `s`. */
  function FirstIndex<T(==)>(s: seq<T>, x: T): (i: nat)
    requires x in s
    ensures i < |s| && s[i] == x && x !in s[..i]
  {
    if s[0] == x then 0
    else
      assert s == [s[0]] + s[1..];
      1 + FirstIndex(s[1..], x)
  }

  /** A position holding `x` with no `x` before it is the first index. */
  lemma FirstIndexUnique<T>(s: seq<T>, x: T, i: nat)
    requires i < |s| && s[i] == x && x !in s[..i]
    ensures FirstIndex(s, x) == i
  {
  }

  /** A first occurrence inside a prefix is the first occurrence in the
      whole sequence. */
  lemma FirstIndexPrefix<T>(s: seq<T>, n: nat, x: T)
    requires n <= |s| && x in s[..n]
    ensures FirstIndex(s, x) == FirstIndex(s[..n], x)
  {
    var k := FirstIndex(s[..n], x);
    assert s[..n][..k] == s[..k];
    FirstIndexUnique(s, x, k);
  }

  /** First-occurrence deduplication: each value of `s` once, at the
      place of its first occurrence; later repeats are dropped. */
  function Distinct<T(==)>(s: seq<T>): (r: seq<T>)
    ensures |r| <= |s|
    ensures forall i :: 0 <= i < |r| ==> r[i] in s
    ensures forall i :: 0 <= i < |s| ==> s[i] in r
  {
    if s == [] then []
    else
      var p, x := s[..|s| - 1], s[|s| - 1];
      assert s == p + [x];
      if x in p then Distinct(p) else Distinct(p) + [x]
  }

  /** One step of `Distinct`: a value seen before is dropped, a new one
      is appended. */
  lemma DistinctSnoc<T>(p: seq<T>, x: T)
    ensures Distinct(p + [x]) == if x in p then Distinct(p) else Distinct(p) + [x]
  {
    assert (p + [x])[..|p|] == p;
  }

  /** The result of `Distinct` holds no value twice. */
  lemma {:induction false} DistinctNoDuplicates<T>(s: seq<T>)
    ensures NoDuplicates(Distinct(s))
  {
    if s != [] {
      DistinctNoDuplicates(s[..|s| - 1]);
    }
  }

  /** The result of `Distinct` lists the values in the order in which
      they first occur in the input. */
  lemma {:induction false} DistinctFirstOccurrenceOrder<T>(s: seq<T>)
    ensures forall i, j :: 0 <= i < j < |Distinct(s)| ==>
      FirstIndex(s, Distinct(s)[i]) < FirstIndex(s, Distinct(s)[j])
  {
    if s != [] {
      var n := |s| - 1;
      var p, x := s[..n], s[n];
      DistinctFirstOccurrenceOrder(p);
      var d, r := Distinct(p), Distinct(s);
      forall y | y in d
        ensures FirstIndex(s, y) == FirstIndex(p, y) < n
      {
        FirstIndexPrefix(s, n, y);
      }
      if x !in p {
        FirstIndexUnique(s, x, n);
        forall i, j | 0 <= i < j < |r|
          ensures FirstIndex(s, r[i]) < FirstIndex(s, r[j])
        {
          assert r[i] == d[i] && r[i] in d;
          if j < |d| {
            assert r[j] == d[j] && r[j] in d;
          }
        }
      } else {
        forall i, j | 0 <= i < j < |r|
          ensures FirstIndex(s, r[i]) < FirstIndex(s, r[j])
        {
          assert r[i] in d && r[j] in d;
        }
      }
    }
  }

  /** On input that already holds no duplicates, `Distinct` changes
      nothing. */
  lemma {:induction false} DistinctOfDuplicateFree<T>(s: seq<T>)
    requires NoDuplicates(s)
    ensures Distinct(s) == s
  {
    if s != [] {
      var n := |s| - 1;
      var p := s[..n];
      DistinctOfDuplicateFree(p);
    }
  }

  /** Appending values that already occurred changes nothing: later
      repeats are dropped. */
  lemma {:induction false} DistinctAppendSeen<T>(p: seq<T>, q: seq<T>)
    requires forall i :: 0 <= i < |q| ==> q[i] in p
    ensures Distinct(p + q) == Distinct(p)
  {
    if q == [] {
      assert p + q == p;
    } else {
      var q', x := q[..|q| - 1], q[|q| - 1];
      assert p + q == (p + q') + [x];
      DistinctAppendSeen(p, q');
      DistinctSnoc(p + q', x);
    }
  }

  /** Appending new, pairwise different values keeps all of them, in
      order. */
  lemma {:induction false} DistinctAppendFresh<T>(p: seq<T>, q: seq<T>)
    requires NoDuplicates(q)
    requires forall i :: 0 <= i < |q| ==> q[i] !in p
    ensures Distinct(p + q) == Distinct(p) + q
  {
    if q == [] {
      assert p + q == p;
    } else {
      var q', x := q[..|q| - 1], q[|q| - 1];
      assert p + q == (p + q') + [x];
      DistinctAppendFresh(p, q');
      DistinctSnoc(p + q', x);
      assert x !in q';
    }
  }

  /** Repeats of values already seen, placed between two runs of new
      values, vanish: only the two runs remain. */
  lemma DistinctDropsRepeats<T>(head: seq<T>, repeats: seq<T>, tail: seq<T>)
    requires NoDuplicates(head + tail)
    requires forall i :: 0 <= i < |repeats| ==> repeats[i] in head
    ensures Distinct(head + repeats + tail) == head + tail
  {
    NoDuplicatesSplit(head, tail);
    DistinctOfDuplicateFree(head);
    DistinctAppendSeen(head, repeats);
    forall i | 0 <= i < |tail|
      ensures tail[i] !in head + repeats
    {
      assert tail[i] !in head;
      assert forall k :: 0 <= k < |repeats| ==> repeats[k] != tail[i];
    }
    DistinctAppendFresh(head + repeats, tail);
  }

  /** Both parts of a duplicate-free concatenation are duplicate-free and
      share no value. */
  lemma NoDuplicatesSplit<T>(head: seq<T>, tail: seq<T>)
    requires NoDuplicates(head + tail)
    ensures NoDuplicates(head) && NoDuplicates(tail)
    ensures forall i :: 0 <= i < |tail| ==> tail[i] !in head
  {
    var s := head + tail;
    assert forall i :: 0 <= i < |head| ==> s[i] == head[i];
    assert forall i :: 0 <= i < |tail| ==> s[|head| + i] == tail[i];
    forall i | 0 <= i < |tail|
      ensures tail[i] !in head
    {
      forall k | 0 <= k < |head|
        ensures head[k] != tail[i]
      {
        assert s[k] != s[|head| + i];
      }
    }
  }

  /** Left fold: `f(... f(f(acc, s[0]), s[1]) ..., s[|s|-1])`. */
  function FoldLeft(f: (int, int) -> int, acc: int, s: seq<int>): (r: int)
    ensures s == [] ==> r == acc
    decreases |s|
  {
    if s == [] then acc else FoldLeft(f, f(acc, s[0]), s[1..])
  }

  /** Folding one more element applies `f` once more to the accumulator:
      the step the accumulator loop of `Reduce` takes. */
  lemma {:induction false} FoldLeftSnoc(f: (int, int) -> int, acc: int, s: seq<int>, x: int)
    ensures FoldLeft(f, acc, s + [x]) == f(FoldLeft(f, acc, s), x)
    decreases |s|
  {
    if s != [] {
      assert (s + [x])[1..] == s[1..] + [x];
      FoldLeftSnoc(f, f(acc, s[0]), s[1..], x);
    }
  }

  /** Folding a concatenation folds the second part starting from the
      result of folding the first. */
  lemma {:induction false} FoldLeftAppend(f: (int, int) -> int, acc: int, s: seq<int>, t: seq<int>)
    ensures FoldLeft(f, acc, s + t) == FoldLeft(f, FoldLeft(f, acc, s), t)
    decreases |s|
  {
    if s == [] {
      assert s + t == t;
    } else {
      assert (s + t)[1..] == s[1..] + t;
      FoldLeftAppend(f, f(acc, s[0]), s[1..], t);
    }
  }
}

=== FILE: sorting.dfy ===
/** The stable sort behind `Sorted` and `SortedBy`. The source hands the
    work to the Go runtime's stable slice sort. Any sort that is ordered
    and stable has the same result for a total order
    (`StableSortDetermined`), so this module specifies one,
    stable insertion sort (`StableSort`), proves that it is a permutation,
    ordered and stable, and implements it in place on an array. */
module Sorting {
  import Sequences

  /** A "less than" relation that sorting can rely on: irreflexive,
      transitive, and such that incomparability is transitive too
      (stated here as negative transitivity). */
  ghost predicate StrictWeakOrder(lt: (int, int) -> bool) {
    && (forall x :: !lt(x, x))
    && (forall x, y, z :: lt(x, y) && lt(y, z) ==> lt(x, z))
    && (forall x, y, z :: lt(x, z) ==> lt(x, y) || lt(y, z))
  }

  /** If `x` is less than `z`, any `y` is greater than `x` or less
      than `z`. */
  lemma NegativelyTransitive(lt: (int, int) -> bool, x: int, y: int, z: int)
    requires StrictWeakOrder(lt)
    ensures lt(x, z) ==> lt(x, y) || lt(y, z)
  {
  }

  /** No later element is less than an earlier one. */
  ghost predicate Ordered(lt: (int, int) -> bool, s: seq<int>) {
    forall i, j :: 0 <= i < j < |s| ==> !lt(s[j], s[i])
  }

  /** The values `lt` cannot tell apart from `k`. Stability is stated
      per such class. */
  function EquivalentTo(lt: (int, int) -> bool, k: int): (equiv: int -> bool) {
    x => !lt(x, k) && !lt(k, x)
  }

  /** The natural order of integers, the comparison `Sorted` uses. */
  function Less(x: int, y: int): (b: bool) {
    x < y
  }

  /** Puts `x`, which came after every element of `s`, into `s`: it moves
      left past exactly the elements it is less than. */
  function Insert(lt: (int, int) -> bool, s: seq<int>, x: int): (r: seq<int>)
    decreases |s|
  {
    if s == [] || !lt(x, s[|s| - 1]) then s + [x]
    else Insert(lt, s[..|s| - 1], x) + [s[|s| - 1]]
  }

  /** Stable insertion sort: the prefix is sorted, then the last element
      is inserted. */
  function StableSort(lt: (int, int) -> bool, s: seq<int>): (r: seq<int>)
    decreases |s|
  {
    if s == [] then [] else Insert(lt, StableSort(lt, s[..|s| - 1]), s[|s| - 1])
  }

  /** Where `Insert` puts `x`: every element to its right is greater than
      `x`, the element just left of it is not. */
  function InsertPos(lt: (int, int) -> bool, s: seq<int>, x: int): (j: nat)
    ensures j <= |s|
    ensures Insert(lt, s, x) == s[..j] + [x] + s[j..]
    ensures forall k :: j <= k < |s| ==> lt(x, s[k])
    ensures 0 < j ==> !lt(x, s[j - 1])
    decreases |s|
  {
    if s == [] || !lt(x, s[|s| - 1]) then |s|
    else
      var p := s[..|s| - 1];
      var j := InsertPos(lt, p, x);
      assert p[..j] == s[..j];
      assert p[j..] + [s[|s| - 1]] == s[j..];
      assert Insert(lt, s, x) == p[..j] + [x] + p[j..] + [s[|s| - 1]];
      j
  }

  /** Sorting rearranges and never adds or drops: the result is a
      permutation of the input, whatever `lt` is. */
  lemma {:induction false} StableSortPermutation(lt: (int, int) -> bool, s: seq<int>)
    ensures |StableSort(lt, s)| == |s|
    ensures multiset(StableSort(lt, s)) == multiset(s)
  {
    if s != [] {
      var p, x := s[..|s| - 1], s[|s| - 1];
      assert s == p + [x];
      StableSortPermutation(lt, p);
      InsertPermutation(lt, StableSort(lt, p), x);
    }
  }

  /** `Insert` adds exactly one occurrence of `x`. */
  lemma InsertPermutation(lt: (int, int) -> bool, q: seq<int>, x: int)
    ensures |Insert(lt, q, x)| == |q| + 1
    ensures multiset(Insert(lt, q, x)) == multiset(q) + multiset{x}
  {
    var j := InsertPos(lt, q, x);
    assert q == q[..j] + q[j..];
    SplicedMultiset(q[..j], x, q[j..]);
  }

  /** Putting `x` between two parts adds one occurrence of `x`. */
  lemma SplicedMultiset(left: seq<int>, x: int, right: seq<int>)
    ensures multiset(left + [x] + right) == multiset(left + right) + multiset{x}
  {
    assert multiset(left + right) == multiset(left) + multiset(right);
  }

  /** Inserting into an ordered sequence keeps it ordered. */
  lemma InsertOrdered(lt: (int, int) -> bool, s: seq<int>, x: int)
    requires StrictWeakOrder(lt) && Ordered(lt, s)
    ensures Ordered(lt, Insert(lt, s, x))
  {
    var j := InsertPos(lt, s, x);
    var r := Insert(lt, s, x);
    forall a, b | 0 <= a < b < |r|
      ensures !lt(r[b], r[a])
    {
      InsertedPair(lt, s, x, j, a, b);
    }
  }

  /** Any two positions of `s[..j] + [x] + s[j..]` are in order when `j`
      is where `Insert` puts `x`. */
  lemma InsertedPair(lt: (int, int) -> bool, s: seq<int>, x: int, j: nat, a: nat, b: nat)
    requires StrictWeakOrder(lt) && Ordered(lt, s)
    requires j <= |s|
    requires forall k :: j <= k < |s| ==> lt(x, s[k])
    requires 0 < j ==> !lt(x, s[j - 1])
    requires a < b <= |s|
    ensures var r := s[..j] + [x] + s[j..]; !lt(r[b], r[a])
  {
    var r := s[..j] + [x] + s[j..];
    if b < j {
      assert r[a] == s[a] && r[b] == s[b];
    } else if b == j {
      assert r[a] == s[a] && r[b] == x;
      if a < j - 1 {
        NegativelyTransitive(lt, x, s[j - 1], s[a]);
      }
    } else if a < j {
      assert r[a] == s[a] && r[b] == s[b - 1];
    } else if a == j {
      assert r[a] == x && r[b] == s[b - 1];
      Asymmetric(lt, x, s[b - 1]);
    } else {
      assert r[a] == s[a - 1] && r[b] == s[b - 1];
    }
  }

  /** A strict weak order never holds both ways. */
  lemma Asymmetric(lt: (int, int) -> bool, x: int, y: int)
    requires StrictWeakOrder(lt)
    ensures lt(x, y) ==> !lt(y, x)
  {
  }

  /** For a strict weak order, the sorted result is ordered. */
  lemma {:induction false} StableSortOrdered(lt: (int, int) -> bool, s: seq<int>)
    requires StrictWeakOrder(lt)
    ensures Ordered(lt, StableSort(lt, s))
  {
    if s != [] {
      StableSortOrdered(lt, s[..|s| - 1]);
      InsertOrdered(lt, StableSort(lt, s[..|s| - 1]), s[|s| - 1]);
    }
  }

  /** Elements greater than a member of `k`'s class are outside it. */
  lemma GreaterLeaveClass(lt: (int, int) -> bool, x: int, k: int, t: seq<int>)
    requires StrictWeakOrder(lt) && EquivalentTo(lt, k)(x)
    requires forall i :: 0 <= i < |t| ==> lt(x, t[i])
    ensures Sequences.Filter(EquivalentTo(lt, k), t) == []
  {
    forall i | 0 <= i < |t|
      ensures !EquivalentTo(lt, k)(t[i])
    {
      NegativelyTransitive(lt, x, k, t[i]);
    }
    Sequences.FilterNonePass(EquivalentTo(lt, k), t);
  }

  /** Filtering the result of `Insert` splits at the insertion point. */
  lemma InsertFilter(c: int -> bool, lt: (int, int) -> bool, q: seq<int>, x: int)
    ensures var j := InsertPos(lt, q, x);
      && Sequences.Filter(c, Insert(lt, q, x))
         == Sequences.Filter(c, q[..j]) + Sequences.Filter(c, [x]) + Sequences.Filter(c, q[j..])
      && Sequences.Filter(c, q) == Sequences.Filter(c, q[..j]) + Sequences.Filter(c, q[j..])
  {
    var j := InsertPos(lt, q, x);
    FilterAround(c, q[..j], x, q[j..]);
    FilterSplit(c, q, j);
  }

  lemma FilterAround(c: int -> bool, left: seq<int>, x: int, right: seq<int>)
    ensures Sequences.Filter(c, left + [x] + right)
         == Sequences.Filter(c, left) + Sequences.Filter(c, [x]) + Sequences.Filter(c, right)
  {
    Sequences.FilterAppend(c, left + [x], right);
    Sequences.FilterAppend(c, left, [x]);
  }

  lemma FilterSplit(c: int -> bool, q: seq<int>, j: nat)
    requires j <= |q|
    ensures Sequences.Filter(c, q) == Sequences.Filter(c, q[..j]) + Sequences.Filter(c, q[j..])
  {
    assert q == q[..j] + q[j..];
    Sequences.FilterAppend(c, q[..j], q[j..]);
  }

  /** Inserting `x` adds it behind every element of its own equivalence
      class and leaves every other class as it was. */
  lemma InsertStable(lt: (int, int) -> bool, q: seq<int>, x: int, k: int)
    requires StrictWeakOrder(lt)
    ensures Sequences.Filter(EquivalentTo(lt, k), Insert(lt, q, x))
         == Sequences.Filter(EquivalentTo(lt, k), q) + Sequences.Filter(EquivalentTo(lt, k), [x])
  {
    var c := EquivalentTo(lt, k);
    var j := InsertPos(lt, q, x);
    InsertFilter(c, lt, q, x);
    if c(x) {
      GreaterLeaveClass(lt, x, k, q[j..]);
    }
    Regroup(Sequences.Filter(c, q[..j]), Sequences.Filter(c, [x]), Sequences.Filter(c, q[j..]));
  }

  /** `l + m + r == (l + r) + m` when `m` or `r` is empty. */
  lemma Regroup(l: seq<int>, m: seq<int>, r: seq<int>)
    requires m == [] || r == []
    ensures l + m + r == (l + r) + m
  {
  }

  /** For a strict weak order, sorting is stable: the elements of any
      one equivalence class appear in the result in their input order. */
  lemma {:induction false} StableSortStable(lt: (int, int) -> bool, s: seq<int>, k: int)
    requires StrictWeakOrder(lt)
    ensures Sequences.Filter(EquivalentTo(lt, k), StableSort(lt, s))
         == Sequences.Filter(EquivalentTo(lt, k), s)
  {
    if s != [] {
      var p, x := s[..|s| - 1], s[|s| - 1];
      assert s == p + [x];
      StableSortStable(lt, p, k);
      InsertStable(lt, StableSort(lt, p), x, k);
      Sequences.FilterAppend(EquivalentTo(lt, k), p, [x]);
    }
  }

  /** `lt` tells apart any two different values. */
  ghost predicate Total(lt: (int, int) -> bool) {
    forall x, y :: !lt(x, y) && !lt(y, x) ==> x == y
  }

  /** For a relation that tells apart any two different values there is
      only one ordered arrangement of a multiset of values, so any sort
      returns the same result. */
  lemma {:induction false} OrderedUnique(lt: (int, int) -> bool, a: seq<int>, b: seq<int>)
    requires Total(lt)
    requires Ordered(lt, a) && Ordered(lt, b)
    requires multiset(a) == multiset(b)
    ensures a == b
    decreases |a|
  {
    assert |a| == |multiset(a)| == |multiset(b)| == |b|;
    if a != [] {
      OrderedHeads(lt, a, b);
      SameTails(a, b);
      OrderedUnique(lt, a[1..], b[1..]);
      assert a == [a[0]] + a[1..] && b == [b[0]] + b[1..];
    }
  }

  /** Two ordered arrangements of one multiset start with the same value. */
  lemma OrderedHeads(lt: (int, int) -> bool, a: seq<int>, b: seq<int>)
    requires Total(lt)
    requires Ordered(lt, a) && Ordered(lt, b)
    requires multiset(a) == multiset(b) && a != [] && b != []
    ensures a[0] == b[0]
  {
    assert a[0] in multiset(b) && b[0] in multiset(a);
    var m :| 0 <= m < |b| && b[m] == a[0];
    var n :| 0 <= n < |a| && a[n] == b[0];
    assert 0 < m ==> !lt(b[m], b[0]);
    assert 0 < n ==> !lt(a[n], a[0]);
  }

  /** Removing equal heads from equal multisets leaves equal multisets. */
  lemma SameTails(a: seq<int>, b: seq<int>)
    requires a != [] && b != [] && a[0] == b[0] && multiset(a) == multiset(b)
    ensures multiset(a[1..]) == multiset(b[1..])
  {
    assert a == [a[0]] + a[1..] && b == [b[0]] + b[1..];
    assert multiset(a[1..]) == multiset(a) - multiset{a[0]};
    assert multiset(b[1..]) == multiset(b) - multiset{b[0]};
  }

  /** For a total strict weak order, `StableSort` returns the one ordered
      permutation of its input. */
  lemma StableSortDetermined(lt: (int, int) -> bool, s: seq<int>, expected: seq<int>)
    requires StrictWeakOrder(lt) && Total(lt)
    requires Ordered(lt, expected) && multiset(expected) == multiset(s)
    ensures StableSort(lt, s) == expected
  {
    StableSortPermutation(lt, s);
    StableSortOrdered(lt, s);
    OrderedUnique(lt, StableSort(lt, s), expected);
  }

  /** `Less` is a strict weak order that tells apart any two different
      integers. */
  lemma LessIsTotalOrder()
    ensures StrictWeakOrder(Less) && Total(Less)
  {
  }

  /** Sorting by `Less` yields an ascending permutation of the input. */
  lemma SortByLessAscending(s: seq<int>)
    ensures |StableSort(Less, s)| == |s|
    ensures multiset(StableSort(Less, s)) == multiset(s)
    ensures forall i, j :: 0 <= i < j < |s| ==> StableSort(Less, s)[i] <= StableSort(Less, s)[j]
  {
    StableSortPermutation(Less, s);
    LessIsTotalOrder();
    StableSortOrdered(Less, s);
  }

  /** One swap of `InsertLast`: `x` is less than the element before
      position `j`, so `Insert` moves it past that element. */
  lemma InsertStep(lt: (int, int) -> bool, s: seq<int>, j: nat, x: int)
    requires 0 < j <= |s| && lt(x, s[j - 1])
    ensures Insert(lt, s[..j], x) + s[j..] == Insert(lt, s[..j - 1], x) + s[j - 1..]
  {
    assert s[..j][..j - 1] == s[..j - 1];
    assert [s[j - 1]] + s[j..] == s[j - 1..];
  }

  /** Where `InsertLast` stops: `x` is not less than the element before
      position `j`, so `Insert` leaves it at `j`. */
  lemma InsertStop(lt: (int, int) -> bool, s: seq<int>, j: nat, x: int)
    requires j <= |s| && (j == 0 || !lt(x, s[j - 1]))
    ensures Insert(lt, s[..j], x) + s[j..] == s[..j] + [x] + s[j..]
  {
  }

  /** Moves `a[i]` left past the elements of `a[..i]` it is less than, by
      adjacent swaps: one step of the insertion sort. */
  method InsertLast(a: array<int>, lt: (int, int) -> bool, i: nat)
    requires i < a.Length
    modifies a
    ensures a[..] == Insert(lt, old(a[..i]), old(a[i])) + old(a[i + 1..])
  {
    ghost var sorted, x, rest := a[..i], a[i], a[i + 1..];
    var j := i;
    assert sorted[..j] == sorted && sorted[j..] == [];
    assert a[..] == sorted[..j] + [x] + sorted[j..] + rest;
    while 0 < j && lt(a[j], a[j - 1])
      invariant 0 <= j <= i
      invariant a[..] == sorted[..j] + [x] + sorted[j..] + rest
      invariant Insert(lt, sorted, x) == Insert(lt, sorted[..j], x) + sorted[j..]
    {
      InsertStep(lt, sorted, j, x);
      SwapStep(a[..], sorted, j, x, rest);
      a[j - 1], a[j] := a[j], a[j - 1];
      j := j - 1;
    }
    InsertStop(lt, sorted, j, x);
  }

  /** Swapping positions `j - 1` and `j` moves `x` one place left. */
  lemma SwapStep(b: seq<int>, sorted: seq<int>, j: nat, x: int, rest: seq<int>)
    requires 0 < j <= |sorted| && b == sorted[..j] + [x] + sorted[j..] + rest
    ensures b[j - 1 := x][j := sorted[j - 1]] == sorted[..j - 1] + [x] + sorted[j - 1..] + rest
  {
  }

  /** Sorts `a` in place into `StableSort(lt, old(a[..]))`: for each
      position in turn, the element there is inserted into the sorted
      prefix before it. */
  method SortInPlace(a: array<int>, lt: (int, int) -> bool)
    modifies a
    ensures a[..] == StableSort(lt, old(a[..]))
  {
    ghost var orig := a[..];
    for i := 0 to a.Length
      invariant a[..i] == StableSort(lt, orig[..i])
      invariant a[i..] == orig[i..]
    {
      assert orig[..i + 1][..i] == orig[..i];
      assert orig[i] == a[i];
      InsertLast(a, lt, i);
    }
    assert orig[..a.Length] == orig;
  }
}

=== FILE: stream.dfy ===
/** The two stream types of the Go package `stream`. A stream wraps a Go
    slice, modelled as an array it shares with whoever handed it in; the
    field is never reassigned. Every transforming operation builds its
    result with `append` into a new slice (`NewSlice` below), except
    `Sorted` and `SortedBy`, which sort the receiver's own array in place
    and wrap that same array, and `Peek`, which returns the receiver. */
module Stream {
  import Sequences
  import Sorting

  /** A fresh array holding `s`: the slice a loop of `append` calls into
      an initially empty local slice ends up with. */
  method NewSlice<T>(s: seq<T>) returns (a: array<T>)
    ensures fresh(a) && a[..] == s
  {
    a := new T[|s|](i requires 0 <= i < |s| => s[i]);
  }

  class IntStream {
    const data: array<int>

    /** `NewIntStream`: wraps the caller's slice without copying it. */
    constructor (data: array<int>)
      ensures this.data == data
    {
      this.data := data;
    }

    /** Element `i` of the result is `fn(data[i])`, in fresh storage. */
    method MapToInt(fn: int -> int) returns (r: IntStream)
      ensures fresh(r) && fresh(r.data)
      ensures r.data[..] == Sequences.Map(fn, data[..])
    {
      var result: seq<int> := [];
      for i := 0 to data.Length
        invariant result == Sequences.Map(fn, data[..i])
      {
        assert data[..i + 1][..i] == data[..i];
        result := result + [fn(data[i])];
      }
      assert data[..data.Length] == data[..];
      var slice := NewSlice(result);
      r := new IntStream(slice);
    }

    /** Element `i` of the resulting string stream is `fn(data[i])`. */
    method MapToString(fn: int -> string) returns (r: StringStream)
      ensures fresh(r) && fresh(r.data)
      ensures r.data[..] == Sequences.Map(fn, data[..])
    {
      var result: seq<string> := [];
      for i := 0 to data.Length
        invariant result == Sequences.Map(fn, data[..i])
      {
        assert data[..i + 1][..i] == data[..i];
        result := result + [fn(data[i])];
      }
      assert data[..data.Length] == data[..];
      var slice := NewSlice(result);
      r := new StringStream(slice);
    }

    /** Keeps the elements `fn` accepts, in order, in fresh storage. */
    method Filter(fn: int -> bool) returns (r: IntStream)
      ensures fresh(r) && fresh(r.data)
      ensures r.data[..] == Sequences.Filter(fn, data[..])
    {
      var result: seq<int> := [];
      for i := 0 to data.Length
        invariant result == Sequences.Filter(fn, data[..i])
      {
        assert data[..i + 1][..i] == data[..i];
        if fn(data[i]) {
          result := result + [data[i]];
        }
      }
      assert data[..data.Length] == data[..];
      var slice := NewSlice(result);
      r := new IntStream(slice);
    }

    /** Shows each element to `fn` and returns the receiver itself. */
    method Peek(fn: int -> ()) returns (r: IntStream)
      ensures r == this
    {
      for i := 0 to data.Length {
        var _ := fn(data[i]);
      }
      r := this;
    }

    /** The first `limit` elements, or all of them when there are fewer;
        none for a limit of zero or less. Over unbounded integers the
        guard `i > limit - 1` cannot wrap around. */
    method Limit(limit: int) returns (r: IntStream)
      ensures fresh(r) && fresh(r.data)
      ensures r.data[..] == data[..Sequences.Clamp(limit, data.Length)]
    {
      var result: seq<int> := [];
      var arr := data;
      var i := 0;
      while i < arr.Length
        invariant 0 <= i <= Sequences.Clamp(limit, arr.Length)
        invariant result == arr[..i]
      {
        if i > limit - 1 {
          break;
        }
        result := result + [arr[i]];
        i := i + 1;
      }
      var slice := NewSlice(result);
      r := new IntStream(slice);
    }

    /** All but the first `cnt` elements; everything for a count of zero
        or less, nothing when the count reaches the length. */
    method Skip(cnt: int) returns (r: IntStream)
      ensures fresh(r) && fresh(r.data)
      ensures r.data[..] == data[Sequences.Clamp(cnt, data.Length)..]
    {
      var result: seq<int> := [];
      var arr := data;
      ghost var k := Sequences.Clamp(cnt, arr.Length);
      var i := 0;
      while i < arr.Length
        invariant 0 <= i <= arr.Length
        invariant result == if i <= k then [] else arr[k..i]
      {
        if i < cnt {
          i := i + 1;
          continue;
        }
        assert i < k + 1 ==> i == k;
        result := result + [arr[i]];
        i := i + 1;
      }
      var slice := NewSlice(result);
      r := new IntStream(slice);
    }

    /** The first occurrence of each value, in order, in fresh storage.
        `keys` is the Go map of values already seen. */
    method Distinct() returns (r: IntStream)
      ensures fresh(r) && fresh(r.data)
      ensures r.data[..] == Sequences.Distinct(data[..])
    {
      var keys: map<int, bool> := map[];
      var result: seq<int> := [];
      for i := 0 to data.Length
        invariant forall v :: v in keys <==> v in data[..i]
        invariant result == Sequences.Distinct(data[..i])
      {
        var item := data[i];
        assert data[..i + 1] == data[..i] + [item];
        if item in keys {
          continue;
        }
        keys := keys[item := true];
        result := result + [item];
      }
      assert data[..data.Length] == data[..];
      var slice := NewSlice(result);
      r := new IntStream(slice);
    }

    /** Sorts the receiver's own array ascending, stably, and returns a
        stream over that same array. */
    method Sorted() returns (r: IntStream)
      modifies data
      ensures fresh(r) && r.data == data
      ensures data[..] == Sorting.StableSort(Sorting.Less, old(data[..]))
      ensures multiset(data[..]) == multiset(old(data[..]))
      ensures forall i, j :: 0 <= i < j < data.Length ==> data[i] <= data[j]
    {
      var result := data;
      Sorting.SortInPlace(result, Sorting.Less);
      Sorting.SortByLessAscending(old(data[..]));
      r := new IntStream(result);
    }

    /** Sorts the receiver's own array stably by `fn` and returns a stream
        over that same array. When `fn` is a strict weak order the result
        is ordered by it and keeps equivalent elements in input order. */
    method SortedBy(fn: (int, int) -> bool) returns (r: IntStream)
      modifies data
      ensures fresh(r) && r.data == data
      ensures data[..] == Sorting.StableSort(fn, old(data[..]))
      ensures multiset(data[..]) == multiset(old(data[..]))
      ensures Sorting.StrictWeakOrder(fn) ==> Sorting.Ordered(fn, data[..])
      ensures Sorting.StrictWeakOrder(fn) ==> forall k ::
        Sequences.Filter(Sorting.EquivalentTo(fn, k), data[..])
        == Sequences.Filter(Sorting.EquivalentTo(fn, k), old(data[..]))
    {
      var result := data;
      Sorting.SortInPlace(result, fn);
      Sorting.StableSortPermutation(fn, old(data[..]));
      if Sorting.StrictWeakOrder(fn) {
        Sorting.StableSortOrdered(fn, old(data[..]));
        forall k {
          Sorting.StableSortStable(fn, old(data[..]), k);
        }
      }
      r := new IntStream(result);
    }

    /** Left fold of the elements into `initial` with `fn`. */
    method Reduce(initial: int, fn: (int, int) -> int) returns (result: int)
      ensures result == Sequences.FoldLeft(fn, initial, data[..])
    {
      result := initial;
      var arr := data;
      for i := 0 to arr.Length
        invariant result == Sequences.FoldLeft(fn, initial, arr[..i])
      {
        Sequences.FoldLeftSnoc(fn, initial, arr[..i], arr[i]);
        assert arr[..i + 1] == arr[..i] + [arr[i]];
        result := fn(result, arr[i]);
      }
      assert arr[..arr.Length] == arr[..];
    }

    /** Hands each element to `fn`; changes nothing. */
    method ForEach(fn: int -> ())
      ensures unchanged(data)
    {
      for i := 0 to data.Length {
        var _ := fn(data[i]);
      }
    }

    /** The backing slice itself, not a copy. */
    method Collect() returns (a: array<int>)
      ensures a == data
    {
      a := data;
    }

    /** The number of elements. */
    method Count() returns (n: int)
      ensures n == data.Length
    {
      n := data.Length;
    }

    /** The largest element; 0 for an empty stream. */
    method Max() returns (result: int)
      ensures data.Length == 0 ==> result == 0
      ensures data.Length > 0 ==> result in data[..]
      ensures forall k :: 0 <= k < data.Length ==> data[k] <= result
    {
      result := 0;
      var arr := data;
      for i := 0 to arr.Length
        invariant i == 0 ==> result == 0
        invariant i > 0 ==> result in arr[..i]
        invariant forall k :: 0 <= k < i ==> arr[k] <= result
      {
        assert arr[..i + 1] == arr[..i] + [arr[i]];
        if i == 0 {
          result := arr[i];
          continue;
        }
        result := if arr[i] > result then arr[i] else result;
      }
      assert arr[..arr.Length] == arr[..];
    }

    /** The smallest element; 0 for an empty stream. */
    method Min() returns (result: int)
      ensures data.Length == 0 ==> result == 0
      ensures data.Length > 0 ==> result in data[..]
      ensures forall k :: 0 <= k < data.Length ==> result <= data[k]
    {
      result := 0;
      var arr := data;
      for i := 0 to arr.Length
        invariant i == 0 ==> result == 0
        invariant i > 0 ==> result in arr[..i]
        invariant forall k :: 0 <= k < i ==> result <= arr[k]
      {
        assert arr[..i + 1] == arr[..i] + [arr[i]];
        if i == 0 {
          result := arr[i];
          continue;
        }
        result := if arr[i] < result then arr[i] else result;
      }
      assert arr[..arr.Length] == arr[..];
    }
  }

  class StringStream {
    const data: array<string>

    /** `NewStringStream`: wraps the caller's slice without copying it. */
    constructor (data: array<string>)
      ensures this.data == data
    {
      this.data := data;
    }

    /** Keeps the strings `fn` accepts, in order, in fresh storage. */
    method Filter(fn: string -> bool) returns (r: StringStream)
      ensures fresh(r) && fresh(r.data)
      ensures r.data[..] == Sequences.Filter(fn, data[..])
    {
      var result: seq<string> := [];
      for i := 0 to data.Length
        invariant result == Sequences.Filter(fn, data[..i])
      {
        assert data[..i + 1][..i] == data[..i];
        if fn(data[i]) {
          result := result + [data[i]];
        }
      }
      assert data[..data.Length] == data[..];
      var slice := NewSlice(result);
      r := new StringStream(slice);
    }

    /** Element `i` of the resulting integer stream is `fn(data[i])`. */
    method MapToInt(fn: string -> int) returns (r: IntStream)
      ensures fresh(r) && fresh(r.data)
      ensures r.data[..] == Sequences.Map(fn, data[..])
    {
      var result: seq<int> := [];
      for i := 0 to data.Length
        invariant result == Sequences.Map(fn, data[..i])
      {
        assert data[..i + 1][..i] == data[..i];
        result := result + [fn(data[i])];
      }
      assert data[..data.Length] == data[..];
      var slice := NewSlice(result);
      r := new IntStream(slice);
    }

    /** The backing slice itself, not a copy. */
    method Collect() returns (a: array<string>)
      ensures a == data
    {
      a := data;
    }
  }
}
